=== FILE: README.md ===
# Wedding invitation site — model of its logic

This Dafny project models the small amount of real logic inside a single-page
wedding-invitation site (Next.js, TypeScript): the guest-message wall and its
de-duplicating merge, the shared message list, the SQLite store behind the two
API routes, the RSVP form schema, the gallery lightbox, the countdown and the
background-music control. Everything is pure functions over immutable
datatypes; browser, network, database, clock and audio are parameters or
abstract events.

| module | file | models |
|---|---|---|
| `Wrappers` | wrappers.dfy | `Option` (absent / `null` / `undefined`) and `Result` (a call that may throw) |
| `Seqs` | seqs.dfy | order-preserving `Filter` (`Array.prototype.filter`, SQL `WHERE`) |
| `Strings` | strings.dfy | `TextLe`, SQLite's BINARY collation on text (code-point lexicographic order) |
| `MessageContext` | message_context.dfy | contexts/message-context.tsx |
| `MessageWall` | message_wall.dfy | components/message-wall.tsx |
| `Db` | db.dfy | lib/db/index.ts |
| `Routes` | routes.dfy | app/api/rsvp/route.ts, app/api/messages/route.ts |
| `RsvpForm` | rsvp_form.dfy | components/rsvp-form.tsx |
| `Gallery` | gallery.dfy | components/gallery.tsx |
| `Countdown` | countdown.dfy | components/countdown-timer.tsx |
| `MusicPlayer` | music_player.dfy | components/music-player.tsx |

Modelling choices:

- A table is a sequence of rows in rowid order plus the AUTOINCREMENT counter.
  A new id is one above both the counter and the largest id present, as
  SQLite's AUTOINCREMENT chooses it. The store's clock is the `now` parameter.
- `created_at` is text throughout. `ORDER BY created_at DESC` therefore compares
  text. SQLite may return rows with equal `created_at` in any order. The model
  picks one order (insertion sort), and the contracts state only what holds for
  every order SQLite could choose.
- A failing store, unreadable JSON or a failed fetch is a boolean or `Option`
  parameter. The result is the route's status and error text.
- The email format test belongs to the validation library. It is the function
  parameter `isEmail`.
- The countdown uses integer `/` and `%` on the millisecond difference.
  `Math.floor((d / k) % m)` on floating-point numbers equals `(d / k) % m` on
  integers when `d` is a non-negative integer below 2^53. Below that bound the
  source's floating-point quotients do not cross an integer boundary.
- JavaScript falsiness of a string field means absent, `null` or `""`.

## Model

| member | source | states |
|---|---|---|
| MessageContext.AddMessage | contexts/message-context.tsx:22-24 | the new message becomes the head, the previous list is the tail, the length grows by exactly one and the multiset gains exactly that message |
| MessageContext.UseMessages | contexts/message-context.tsx:33-37 | reading the context succeeds exactly when a provider encloses the consumer, and otherwise fails with the fixed "must be used within a MessageProvider" error |
| MessageWall.Key | components/message-wall.tsx:29-41 | the key is the name, a dash, then the message, a dash and created_at: its length and where each part sits |
| MessageWall.MergeUpdate | components/message-wall.tsx:27-47 | `setMessages` is called exactly when the response carries a list with some message whose key is not held, and the list it sets keeps the held list as a proper prefix |
| MessageWall.Merge | components/message-wall.tsx:29-46 | the held list is an unchanged prefix; every appended message comes from the server with an unheld key, and every such server message is appended; the length stays within `|held|..|held|+|server|`; the keys after are the held keys plus the server keys |
| MessageWall.MergeAppendsAbsent | components/message-wall.tsx:37-45 | the merge result equals the held list followed by the independent `Filter` of server messages whose key is absent, so its length is `|held|` plus that count |
| MessageWall.EmptyServerListChangesNothing | components/message-wall.tsx:27 | a missing or empty server list makes no update and leaves the held list unchanged |
| MessageWall.AllHeldNoUpdate | components/message-wall.tsx:44 | when every server key is already held, no update is made and the list is unchanged |
| MessageWall.MergeIdempotent | components/message-wall.tsx:44-57 | merging the same server list twice equals merging once, and the re-run fetch makes no update, so the effect that re-runs on every list change settles |
| MessageWall.FirstFetchShowsServerList | contexts/message-context.tsx:20 | the provider starts with an empty list, so the first successful fetch shows the server list exactly as sent |
| MessageWall.ServerDuplicatesKept | components/message-wall.tsx:37-42 | duplicates inside one server list are kept, because only held keys are consulted |
| MessageWall.KeyCollision | components/message-wall.tsx:29-42 | two different messages ("Ana-Budi","Hi") and ("Ana","Budi-Hi") with the same time share a key, and the server copy of the second is dropped |
| MessageWall.KeyInjectiveWithoutDashes | components/message-wall.tsx:31 | when neither name nor message contains a dash, equal keys imply equal triples |
| MessageWall.OptimisticThenConfirmed | components/message-wall.tsx:37-45 | after an optimistic insert, a server list of the same message and already-held ones adds nothing: the list is the new message then the old list, one longer than before |
| MessageWall.CompleteFetch | components/message-wall.tsx:14-53 | every fetch ends with loading off; a failure sets the fixed error text and makes no update; success keeps the previous error and makes exactly the merge update of the response's list; an error once set is never cleared |
| MessageWall.FetchCycleMerges | components/message-wall.tsx:14-57 | after a successful fetch the shared list is the merge of the held list with the server list, and fetching the same list again leaves it there |
| MessageWall.FirstRenderShowsSkeleton | components/message-wall.tsx:10-11 | the wall starts loading with no error, so its first render is the skeleton whatever the list holds |
| MessageWall.Render | components/message-wall.tsx:78-103 | the skeleton is shown while loading; cards are shown exactly when not loading, with no error and a non-empty list, and they show the held list; error text is shown exactly when not loading and an error is set, and it is that error; an empty list without error shows the first-message prompt |
| MessageWall.ErrorIsSticky | components/message-wall.tsx:48-52 | after a failed fetch, any further run of fetches still carries the error, and the wall shows the error text |
| Db.CreateIfNotExists | lib/db/index.ts:16-25 | afterwards the table exists; an existing table is left exactly as it was, and a new one is empty |
| Db.GetDb | lib/db/index.ts:7-29 | a held connection is returned with the state untouched; a rejected open throws and changes nothing; a successful open is held from then on; the table is then created if missing, and a rejected creation throws but keeps the connection and leaves the file as it was |
| Db.GetDbOpensOnce | lib/db/index.ts:8-28 | once the first call of a run holds a connection, every later call returns its handle, and the state after the run is the state after the first call |
| Db.FailedOpenRetried | lib/db/index.ts:8-13 | a call whose open rejects leaves no trace: the rest of the run behaves as if it had not been made, so the next call opens again |
| Db.FailedCreateNeverRetried | lib/db/index.ts:10-25 | when the first open succeeds but its `CREATE TABLE` rejects, that call throws, every later call is handed the connection, and the table is never created in that run |
| Db.StoredMessage | lib/db/index.ts:41 | an absent message is stored as the empty text; a present one is stored verbatim |
| Db.SaveRsvp | lib/db/index.ts:31-45 | exactly one row is appended and all earlier rows are unchanged; its id exceeds every existing id and the counter; its fields are the input's, with the message defaulted and the timestamp from the store's clock |
| Db.SortNewestFirst | lib/db/index.ts:54 | the output is ordered by `created_at`, non-increasing, and is a permutation of the input |
| Db.TopNewest | lib/db/index.ts:54-55 | the output holds `min(n, limit)` rows drawn from the input, newest first, and no row left out is newer than a row kept |
| Db.QueryRows | lib/db/index.ts:50-56 | at most 50 rows, each stored and carrying a non-empty message, newest first, and exactly `min(50, rows with a message)` of them |
| Db.QueryKeepsNewest | lib/db/index.ts:53-55 | the rows returned are drawn from the rows with a message, and no row with a message that is left out is newer than one returned |
| Db.OnlyTiesReorder | lib/db/index.ts:54 | in a newest-first list a row compares as no newer than a later row only when the two timestamps are equal, so ties are the only freedom of the order |
| Db.StrictlyNewestHeads | lib/db/index.ts:50-56 | a row with a message that is strictly newer than every other row is the first row the query returns |
| Db.Project | lib/db/index.ts:51 | the projection keeps name and created_at, and the message of a row that has one |
| Db.GetMessages | lib/db/index.ts:47-59 | exactly `min(50, rows with a message)` messages, none empty, ordered newest first, each the projection of a stored row that has a message; position by position the projection of the query's rows |
| Db.NoMessagesEmptyList | lib/db/index.ts:53 | when no stored row carries a message, the message list is empty |
| Db.SavedWithoutMessageHidden | lib/db/index.ts:41-53 | saving without a message (absent or empty) leaves the set of message rows and the query result unchanged |
| Db.FewMessagesAllSelected | lib/db/index.ts:53-55 | with at most 50 rows carrying a message, the query returns exactly those rows |
| Db.SavedMessageShown | lib/db/index.ts:39-55 | a row saved with a message appears in the query result when fewer than 50 other rows carry one, whatever its timestamp |
| Db.SavedMessageFirst | lib/db/index.ts:39-55 | a row saved with a message and stamped later than every stored row is the first row of the query result, however many rows carry a message |
| Routes.GuestCountOrDefault | app/api/rsvp/route.ts:20 | a falsy guest count becomes "0", and a truthy one passes through unchanged |
| Routes.ToInput | app/api/rsvp/route.ts:17-22 | name, attending and message reach the store unchanged; the guest count becomes "0" exactly when it was falsy, and otherwise is stored as given |
| Routes.PostRsvp | app/api/rsvp/route.ts:4-32 | status is 200, 400 or 500; 400 with "Missing required fields" exactly when the body parsed and name or attending is falsy; 200 with a bare acknowledgement exactly when valid and the write succeeds, and then the table is `SaveRsvp` of the mapped input; 500 with "Failed to save RSVP" otherwise; the table is unchanged unless 200 |
| Routes.GetMessagesRoute | app/api/messages/route.ts:4-15 | 200 exactly when the store answers, and then the payload is exactly the store's `getMessages` list (at most 50); otherwise 500 with "Failed to fetch messages" |
| Routes.ClientOutcome | components/message-wall.tsx:17-23 | a non-OK status is a failed fetch, and an OK response with a list yields that list |
| Routes.SubmissionWithoutMessage | app/api/rsvp/route.ts:17-24 | a submission with only name and attending is acknowledged and stored with guest count "0" and an empty message, and leaves the message list unchanged |
| Routes.SubmissionWithMessageShown | app/api/rsvp/route.ts:17-22 | a submission with a message appears in the next message list when fewer than 50 stored rows carry a message |
| Routes.SubmissionWithMessageFirst | app/api/rsvp/route.ts:17-22 | a submission with a message, stamped later than every stored row, is acknowledged and is the first message of the next list, however many messages are stored |
| Routes.TruthyGuestCountStored | app/api/rsvp/route.ts:17-24 | an accepted submission with a non-empty guest count stores exactly that count in the new row |
| Routes.AnyAttendingAccepted | app/api/rsvp/route.ts:9 | an attendance of "maybe" is accepted: only falsiness is checked, not membership in yes/no |
| Routes.StoreFailureShowsError | app/api/messages/route.ts:9-14 | a store failure on the messages route reaches the wall as no update and the "Could not load messages" error view |
| RsvpForm.IssueText | components/rsvp-form.tsx:18-22 | the schema gives a non-empty message for every issue except an attendance value outside the options |
| RsvpForm.IssueTextsDistinct | components/rsvp-form.tsx:18-22 | no two issues share a message, so a shown message names the rule that failed |
| RsvpForm.Issues | components/rsvp-form.tsx:17-26 | each issue kind occurs exactly when its rule fails (name shorter than 2, email rejected by the library test, attendance missing, attendance not yes/no), and the count is exactly the number of failing fields, so no issue repeats |
| RsvpForm.ValidIff | components/rsvp-form.tsx:17-26 | a form is valid exactly when name length is at least 2, the email passes, and attending is "yes" or "no"; the optional fields never matter |
| RsvpForm.DefaultsInvalid | components/rsvp-form.tsx:35-42 | the default values fail validation for any email test, because the name is empty |
| RsvpForm.ShowsGuestFields | components/rsvp-form.tsx:158 | guest count and dietary fields are shown exactly when attending is "yes" |
| RsvpForm.SubmitEnabled | components/rsvp-form.tsx:215 | the submit button is enabled exactly when no submission is in progress |
| RsvpForm.PressSubmit | components/rsvp-form.tsx:45-92 | a press while submitting is ignored; otherwise the values are kept, the issues are reported, and submission starts exactly when the form is valid |
| RsvpForm.NoDoubleSubmit | components/rsvp-form.tsx:45-46 | once a valid press starts the submission the button is disabled, and a second press changes nothing |
| RsvpForm.FinishSubmit | components/rsvp-form.tsx:58-59 | after submit completes, the values are the defaults, submitting is off and no issues remain |
| RsvpForm.SubmitCycleResets | components/rsvp-form.tsx:45-59 | a valid form, once submitted and finished, is back in the initial state, with the attending-only fields shown |
| Gallery.AlwaysConsistent | components/gallery.tsx:9 | the gallery starts closed and unlocked, and opening, closing and navigating keep "open exactly while scrolling is locked" |
| Gallery.Step | components/gallery.tsx:52-56 | the next index is in range and wraps from the last index to the first; the previous index is in range and wraps from the first to the last; elsewhere each moves by one |
| Gallery.OpenLightbox | components/gallery.tsx:39-42 | the selection becomes the given index, and scrolling is locked |
| Gallery.CloseLightbox | components/gallery.tsx:44-47 | the selection is cleared and scrolling is unlocked |
| Gallery.Navigate | components/gallery.tsx:49-57 | navigating with nothing selected changes nothing; otherwise the selection moves to `Step` of the current index (next or previous, wrapping) and stays in range; the scroll lock is untouched, so open-iff-locked is preserved |
| Gallery.NavigateBackAndForth | components/gallery.tsx:49-57 | in an open lightbox, next then previous, or previous then next, shows the same image again with the lock unchanged |
| Gallery.StepInverse | components/gallery.tsx:53-55 | next then previous, and previous then next, return to the starting index |
| Gallery.ForwardIsModular | components/gallery.tsx:53 | k forward steps from index i land on `(i + k) % 6` |
| Gallery.FullCycle | components/gallery.tsx:53 | six forward steps return to the starting image |
| Countdown.CalculateTimeLeft | components/countdown-timer.tsx:19-33 | an unparsable or past date gives all zeros; hours are below 24, minutes and seconds below 60; days are the difference divided by 86400000 |
| Countdown.Recompose | components/countdown-timer.tsx:24-27 | for a positive difference, `days*86400000 + hours*3600000 + minutes*60000 + seconds*1000 + d%1000 == d` |
| Countdown.NeverIncreases | components/countdown-timer.tsx:20-27 | as the clock advances the span shown never increases |
| MusicPlayer.Initial | components/music-player.tsx:19-24 | not playing, not paused by the user, no audio element yet, and the previous prop equals the initial prop |
| MusicPlayer.Mount | components/music-player.tsx:35-43 | afterwards an element exists; an existing one is kept; a new one starts at 84 seconds |
| MusicPlayer.TogglePlay | components/music-player.tsx:78-104 | with no element nothing happens; while playing it requests a pause and records the user's pause; otherwise it requests play, clears the pause record, and rewinds to 84 when below 1 second; the displayed flag is left to events |
| MusicPlayer.OnAudioEvent | components/music-player.tsx:26-48 | play sets the flag; pause, ended and a rejected toggle play clear it; a rejected autoplay changes nothing; every event except a rejected autoplay reports the new flag upward |
| MusicPlayer.StartPlayingEffect | components/music-player.tsx:107-125 | it acts only when the prop differs from its previous value and then records it; it requests play exactly on a change to true with an element present and no user pause, seeking to 84 first; it never pauses and never touches the flags |
| MusicPlayer.NoAutoplayOnFirstRender | components/music-player.tsx:107-110 | the first render after mounting never autoplays |
| MusicPlayer.PausedStaysPaused | components/music-player.tsx:109-113 | once the user has paused, no run of prop changes and audio events without a toggle ever requests play |
| MusicPlayer.OnlyEventsMovePlaying | components/music-player.tsx:46-48 | a run of toggles and prop changes with no audio event leaves the displayed flag unchanged |
| MusicPlayer.EdgeTriggered | components/music-player.tsx:109-110 | re-running the effect with the same prop does nothing, whatever `userPaused` became in between |

## Left out

- Rendering, styling and animation are left out: JSX, framer-motion variants, page layout and the popup, bank-card and map components are presentation only.
- Real I/O is left out: SQLite, `fetch`, `request.json()`, `NextResponse`, `setTimeout`/`setInterval`, `toast` and `HTMLAudioElement` become parameters, result values or abstract events.
- Non-string JSON values are left out: the route reads each field as text or absent. A number or boolean in the body would go through JavaScript's own falsiness rules.
- The store's type affinity is left out: `guestCount` is declared INTEGER, so SQLite converts the text it receives. The model stores the text as given.
- scripts/reset-db.js is not part of this model. It creates a table `rsvps` with `guestCount TEXT`, which differs from the `rsvp` table with `guestCount INTEGER` that lib/db/index.ts creates.
- Db.GetDb: concurrent first calls are left out. Two `getDb` calls that start before the first open completes would both open a connection; the model's calls are sequential. What `saveRsvp` and `getMessages` do on a store without the table (after a rejected `CREATE TABLE`) is their failure path: the routes' `writeOk` and missing-store parameters.
- Db.QueryRows: among rows with equal `created_at` the model fixes one order. SQLite may return them in any order, so the contract states only the ordering by `created_at`.
- The fetch/unmount race in the message wall is left out. A fetch can resolve after unmounting; that is React scheduling.
- The RSVP form never calls the API or `addMessage`: its `onSubmit` only waits and shows a toast. The model therefore has no end-to-end form-to-store flow.
- RsvpForm.Issues: the name length is counted in characters, not in UTF-16 code units as the validation library counts them. The library's own message for an out-of-range attendance value is not modelled.
- Countdown.CalculateTimeLeft: floating-point division and `Math.floor` are replaced by integer division. This is exact for non-negative integer differences below 2^53. Dates and locale formatting (`toLocaleDateString`) are left out.
- Music volume and looping are floating-point settings with no logic, and are left out. So is the cleanup that pauses the element on unmount.

=== FILE: countdown.dfy ===
/** The countdown to the wedding (components/countdown-timer.tsx): the time
    left split into days, hours, minutes and seconds, or all zeros once the
    date has passed. */
module Countdown {
  import opened Wrappers

  datatype TimeLeft = TimeLeft(days: nat, hours: nat, minutes: nat, seconds: nat)

  /** The state before the first computation, and after the date has passed. */
  const Zero: TimeLeft := TimeLeft(0, 0, 0, 0)

  const MsPerSecond: nat := 1000
  const MsPerMinute: nat := 60 * 1000
  const MsPerHour: nat := 60 * 60 * 1000
  const MsPerDay: nat := 24 * 60 * 60 * 1000

  /** `calculateTimeLeft` at clock reading `now` (milliseconds since the
      epoch). `target` is the wedding date in the same unit, or None when the
      date text does not parse, so that the difference is NaN and never
      positive. Each field uses integer division in place of the source's
      floating-point division followed by `Math.floor`. */
  function CalculateTimeLeft(target: Option<int>, now: int): (t: TimeLeft)
    ensures target.None? || target.value <= now ==> t == Zero
    ensures t.hours < 24 && t.minutes < 60 && t.seconds < 60
    ensures target.Some? && target.value > now ==> t.days == (target.value - now) / MsPerDay
  {
    match target
    case None => Zero
    case Some(when) =>
      var difference := when - now;
      if difference > 0 then
        TimeLeft(
          difference / (1000 * 60 * 60 * 24),
          (difference / (1000 * 60 * 60)) % 24,
          (difference / 1000 / 60) % 60,
          (difference / 1000) % 60)
      else Zero
  }

  /** The whole-second span a `TimeLeft` stands for, in milliseconds. */
  function Span(t: TimeLeft): nat
  {
    t.days * MsPerDay + t.hours * MsPerHour + t.minutes * MsPerMinute + t.seconds * MsPerSecond
  }

  /** Minutes, hours and days are successive quotients of the difference. */
  lemma Quotients(d: nat)
    ensures d / 1000 / 60 == d / 60000
    ensures d / 60000 / 60 == d / 3600000
    ensures d / 3600000 / 24 == d / 86400000
  {
  }

  /** For a positive difference, the four fields together with the leftover
      milliseconds add back up to the difference. */
  lemma Recompose(when: int, now: int)
    requires when > now
    ensures Span(CalculateTimeLeft(Some(when), now)) + (when - now) % MsPerSecond == when - now
  {
    var d: nat := when - now;
    var t := CalculateTimeLeft(Some(when), now);
    var s := d / 1000;
    var m := s / 60;
    var h := m / 60;
    Quotients(d);
    assert t.seconds == s % 60 && t.minutes == m % 60 && t.hours == h % 24 && t.days == h / 24;
    assert d == 1000 * s + d % 1000;
    assert s == 60 * m + t.seconds;
    assert m == 60 * h + t.minutes;
    assert h == 24 * t.days + t.hours;
  }

  /** The countdown never goes up as the clock advances: the span shown at a
      later reading is at most the span shown at an earlier one. */
  lemma NeverIncreases(target: Option<int>, earlier: int, later: int)
    requires earlier <= later
    ensures Span(CalculateTimeLeft(target, later)) <= Span(CalculateTimeLeft(target, earlier))
  {
    if target.Some? && target.value > later {
      var d1 := target.value - earlier;
      var d2 := target.value - later;
      Recompose(target.value, earlier);
      Recompose(target.value, later);
      assert d1 - d1 % 1000 == 1000 * (d1 / 1000);
      assert d2 - d2 % 1000 == 1000 * (d2 / 1000);
      assert d1 / 1000 >= d2 / 1000;
    }
  }
}

=== FILE: db.dfy ===
/** The single-table SQLite store (lib/db/index.ts), modelled as a sequence of
    rows: lazy opening with an idempotent `CREATE TABLE IF NOT EXISTS`, the
    insert behind `saveRsvp`, and the query behind `getMessages`. */
module Db {
  import opened Wrappers
  import opened Seqs
  import opened Strings
  import opened MessageContext

  /** A row of table `rsvp`. `message` is None for SQL NULL; `createdAt` is the
      text SQLite's CURRENT_TIMESTAMP produced at insert time. */
  datatype RsvpRow = RsvpRow(
    id: nat,
    name: string,
    attending: string,
    guestCount: string,
    message: Option<string>,
    createdAt: string)

  /** The table's rows in rowid order, and the AUTOINCREMENT counter kept in
      `sqlite_sequence`: the largest id the table has ever issued. */
  datatype Table = Table(rows: seq<RsvpRow>, lastId: nat)

  const EmptyTable: Table := Table([], 0)

  // ---------------------------------------------------------------- opening

  /** `CREATE TABLE IF NOT EXISTS rsvp (...)` on the database file, whose
      table is None until first created. */
  function CreateIfNotExists(file: Option<Table>): (r: Option<Table>)
    ensures r.Some?
    ensures file.Some? ==> r == file
    ensures file.None? ==> r.value.rows == []
  {
    if file.Some? then file else Some(EmptyTable)
  }

  /** The module-level `db` variable: null until the first `getDb`. */
  datatype Connection = Unopened | Opened(handle: nat)

  datatype DbState = DbState(conn: Connection, file: Option<Table>)

  /** What the two awaited steps of a `getDb` call that has to open would
      do: `open` yields a new handle or rejects (None), and the following
      `CREATE TABLE` succeeds or rejects. */
  datatype OpenAttempt = OpenAttempt(handle: Option<nat>, createOk: bool)

  /** `getDb`: when a connection is held, return it and touch nothing.
      Otherwise open one; a rejected open throws and leaves `db` null. The
      handle is stored in `db` before the table is created, so a rejected
      `CREATE TABLE` throws but leaves the connection held. Returns the handle
      (None when the call throws) and the state after the call. */
  function GetDb(s: DbState, a: OpenAttempt): (r: (Option<nat>, DbState))
    ensures s.conn.Opened? ==> r == (Some(s.conn.handle), s)
    ensures s.conn.Unopened? && a.handle.None? ==> r == (None, s)
    ensures s.conn.Unopened? && a.handle.Some? ==> r.1.conn == Opened(a.handle.value)
    ensures s.conn.Unopened? && a.handle.Some? && a.createOk ==> r.0 == a.handle && r.1.file == CreateIfNotExists(s.file)
    ensures s.conn.Unopened? && a.handle.Some? && !a.createOk ==> r.0.None? && r.1.file == s.file
    ensures r.0.Some? ==> r.1.conn == Opened(r.0.value)
  {
    match s.conn
    case Opened(h) => (Some(h), s)
    case Unopened =>
      match a.handle
      case None => (None, s)
      case Some(h) =>
        if a.createOk then (Some(h), DbState(Opened(h), CreateIfNotExists(s.file)))
        else (None, DbState(Opened(h), s.file))
  }

  /** A run of `getDb` calls, each with the attempt it would make if it has
      to open: the handles returned and the state afterwards. */
  function GetDbRun(s: DbState, attempts: seq<OpenAttempt>): (r: (seq<Option<nat>>, DbState))
    ensures |r.0| == |attempts|
    decreases |attempts|
  {
    if |attempts| == 0 then ([], s)
    else
      var (h, s1) := GetDb(s, attempts[0]);
      var (hs, s2) := GetDbRun(s1, attempts[1..]);
      ([h] + hs, s2)
  }

  /** Initialisation happens at most once: once the first call of a run has
      a connection, every later call returns its handle and nothing after the
      first call touches the state. */
  lemma {:induction false} GetDbOpensOnce(s: DbState, attempts: seq<OpenAttempt>)
    requires |attempts| > 0
    requires s.conn.Opened? || attempts[0].handle.Some?
    ensures var (hs, s') := GetDbRun(s, attempts);
            var first := GetDb(s, attempts[0]).1;
            && s' == first && first.conn.Opened?
            && forall i :: 1 <= i < |hs| ==> hs[i] == Some(first.conn.handle)
    ensures GetDb(s, attempts[0]).0.Some? ==> forall i :: 0 <= i < |attempts| ==> GetDbRun(s, attempts).0[i] == GetDbRun(s, attempts).0[0]
  {
    var (h, s1) := GetDb(s, attempts[0]);
    RunFromOpened(s1, attempts[1..]);
  }

  lemma {:induction false} RunFromOpened(s: DbState, attempts: seq<OpenAttempt>)
    requires s.conn.Opened?
    ensures var (hs, s') := GetDbRun(s, attempts);
            s' == s && forall i :: 0 <= i < |hs| ==> hs[i] == Some(s.conn.handle)
    decreases |attempts|
  {
    if |attempts| > 0 {
      RunFromOpened(s, attempts[1..]);
    }
  }

  /** A call whose `open` rejects leaves nothing behind: the run goes on as if
      the call had not been made, so the next call opens again. */
  lemma {:induction false} FailedOpenRetried(s: DbState, a: OpenAttempt, attempts: seq<OpenAttempt>)
    requires s.conn.Unopened? && a.handle.None?
    ensures GetDbRun(s, [a] + attempts) == ([None] + GetDbRun(s, attempts).0, GetDbRun(s, attempts).1)
  {
    assert ([a] + attempts)[1..] == attempts;
  }

  /** A first call whose `CREATE TABLE` rejects keeps its connection, and no
      later call creates the table: the store stays without one for the
      rest of the run, while every later call is handed the connection. */
  lemma {:induction false} FailedCreateNeverRetried(s: DbState, attempts: seq<OpenAttempt>)
    requires s.conn.Unopened? && s.file.None?
    requires |attempts| > 0 && attempts[0].handle.Some? && !attempts[0].createOk
    ensures GetDbRun(s, attempts).1.file.None?
    ensures GetDbRun(s, attempts).0[0].None?
    ensures forall i :: 1 <= i < |attempts| ==> GetDbRun(s, attempts).0[i] == attempts[0].handle
  {
    GetDbOpensOnce(s, attempts);
  }

  // ---------------------------------------------------------------- insert

  /** The largest id present in `rows` (0 for none). */
  function MaxId(rows: seq<RsvpRow>): (m: nat)
    ensures forall x :: x in rows ==> x.id <= m
    ensures |rows| > 0 ==> exists x :: x in rows && x.id == m
    decreases |rows|
  {
    if |rows| == 0 then 0
    else
      var m := MaxId(rows[1..]);
      assert forall x :: x in rows ==> x == rows[0] || x in rows[1..];
      if rows[0].id >= m then rows[0].id else m
  }

  /** The argument of `saveRsvp`. */
  datatype RsvpInput = RsvpInput(name: string, attending: string, guestCount: string, message: Option<string>)

  /** `data.message || ''`: a missing or empty message is stored as ''. */
  function StoredMessage(message: Option<string>): (r: string)
    ensures message.None? ==> r == ""
    ensures message.Some? ==> r == message.value
  {
    if message.Some? && message.value != "" then message.value else ""
  }

  /** `saveRsvp` on an existing table at time `now`: one row is appended; its
      id is one above both the counter and every id present, and the store
      stamps it with `now`. */
  function SaveRsvp(t: Table, data: RsvpInput, now: string): (r: Table)
    ensures |r.rows| == |t.rows| + 1
    ensures r.rows[..|t.rows|] == t.rows
    ensures var row := r.rows[|t.rows|];
            && (forall x :: x in t.rows ==> x.id < row.id)
            && t.lastId < row.id == r.lastId
            && row.name == data.name && row.attending == data.attending
            && row.guestCount == data.guestCount
            && row.message == Some(StoredMessage(data.message))
            && row.createdAt == now
  {
    var id := (if t.lastId >= MaxId(t.rows) then t.lastId else MaxId(t.rows)) + 1;
    var row := RsvpRow(id, data.name, data.attending, data.guestCount, Some(StoredMessage(data.message)), now);
    Table(t.rows + [row], id)
  }

  // ---------------------------------------------------------------- query

  /** `message IS NOT NULL AND message != ''`. */
  predicate HasMessage(row: RsvpRow)
  {
    row.message.Some? && row.message.value != ""
  }

  /** Ordered by `created_at DESC`. */
  predicate NewestFirst(rows: seq<RsvpRow>)
  {
    forall i, j :: 0 <= i < j < |rows| ==> TextLe(rows[j].createdAt, rows[i].createdAt)
  }

  /** In a newest-first list, a row is never older than a later one; they
      compare the other way only when their timestamps are equal, so ties
      are the only freedom the ordering leaves. */
  lemma OnlyTiesReorder(rows: seq<RsvpRow>, i: nat, j: nat)
    requires NewestFirst(rows) && i < j < |rows|
    ensures TextLe(rows[i].createdAt, rows[j].createdAt) ==> rows[i].createdAt == rows[j].createdAt
  {
    if TextLe(rows[i].createdAt, rows[j].createdAt) {
      TextLeAntisymmetric(rows[i].createdAt, rows[j].createdAt);
    }
  }

  /** Insert `x` into a newest-first list, before the first row not newer than it. */
  function InsertNewestFirst(x: RsvpRow, rows: seq<RsvpRow>): (r: seq<RsvpRow>)
    requires NewestFirst(rows)
    ensures NewestFirst(r)
    ensures multiset(r) == multiset(rows) + multiset{x}
    decreases |rows|
  {
    if |rows| == 0 then [x]
    else
      assert rows == [rows[0]] + rows[1..];
      if TextLe(rows[0].createdAt, x.createdAt) then
        NewerThanAll(x, rows);
        PrependNewest(x, rows);
        [x] + rows
      else
        var rest := InsertNewestFirst(x, rows[1..]);
        TextLeTotal(rows[0].createdAt, x.createdAt);
        HeadNewerThanInsert(x, rows, rest);
        PrependNewest(rows[0], rest);
        [rows[0]] + rest
  }

  /** A row at least as new as the head of a newest-first list is at least as
      new as every row in it. */
  lemma NewerThanAll(x: RsvpRow, rows: seq<RsvpRow>)
    requires NewestFirst(rows) && |rows| > 0 && TextLe(rows[0].createdAt, x.createdAt)
    ensures forall y :: y in rows ==> TextLe(y.createdAt, x.createdAt)
  {
    forall y | y in rows
      ensures TextLe(y.createdAt, x.createdAt)
    {
      var j :| 0 <= j < |rows| && rows[j] == y;
      if j > 0 { TextLeTransitive(rows[j].createdAt, rows[0].createdAt, x.createdAt); }
    }
  }

  /** The rows of `rest`, drawn from the tail of `rows` and from `x`, are no
      newer than the head of `rows`. */
  lemma HeadNewerThanInsert(x: RsvpRow, rows: seq<RsvpRow>, rest: seq<RsvpRow>)
    requires NewestFirst(rows) && |rows| > 0 && TextLe(x.createdAt, rows[0].createdAt)
    requires multiset(rest) == multiset(rows[1..]) + multiset{x}
    ensures forall y :: y in rest ==> TextLe(y.createdAt, rows[0].createdAt)
  {
    forall y | y in rest
      ensures TextLe(y.createdAt, rows[0].createdAt)
    {
      assert y in multiset(rest);
      if y != x {
        assert y in multiset(rows[1..]);
        var j :| 0 <= j < |rows[1..]| && rows[1..][j] == y;
        assert rows[j + 1] == y;
      }
    }
  }

  /** Putting a row at least as new as all others in front keeps the order. */
  lemma PrependNewest(h: RsvpRow, rest: seq<RsvpRow>)
    requires NewestFirst(rest)
    requires forall y :: y in rest ==> TextLe(y.createdAt, h.createdAt)
    ensures NewestFirst([h] + rest)
  {
    var r := [h] + rest;
    forall i, j | 0 <= i < j < |r|
      ensures TextLe(r[j].createdAt, r[i].createdAt)
    {
      if i == 0 {
        assert r[j] == rest[j - 1] && rest[j - 1] in rest;
      } else {
        assert r[i] == rest[i - 1] && r[j] == rest[j - 1];
      }
    }
  }

  /** The rows, reordered newest first. */
  function SortNewestFirst(rows: seq<RsvpRow>): (r: seq<RsvpRow>)
    ensures NewestFirst(r)
    ensures multiset(r) == multiset(rows)
    decreases |rows|
  {
    if |rows| == 0 then []
    else
      assert rows == [rows[0]] + rows[1..];
      InsertNewestFirst(rows[0], SortNewestFirst(rows[1..]))
  }

  /** `LIMIT 50`. */
  const MessageLimit: nat := 50

  /** The newest `limit` rows: as many as there are up to `limit`, drawn from
      `rows`, newest first, and none left out is newer than one kept. */
  function TopNewest(rows: seq<RsvpRow>, limit: nat): (r: seq<RsvpRow>)
    ensures |r| == (if |rows| < limit then |rows| else limit)
    ensures multiset(r) <= multiset(rows)
    ensures NewestFirst(r)
    ensures forall x, y :: x in multiset(rows) - multiset(r) && y in r ==> TextLe(x.createdAt, y.createdAt)
  {
    var sorted := SortNewestFirst(rows);
    var n := if |sorted| < limit then |sorted| else limit;
    TakeKeepsNewest(sorted, n);
    sorted[..n]
  }

  lemma TakeKeepsNewest(sorted: seq<RsvpRow>, n: nat)
    requires NewestFirst(sorted) && n <= |sorted|
    ensures NewestFirst(sorted[..n])
    ensures multiset(sorted) == multiset(sorted[..n]) + multiset(sorted[n..])
    ensures forall x, y :: x in multiset(sorted) - multiset(sorted[..n]) && y in sorted[..n]
              ==> TextLe(x.createdAt, y.createdAt)
  {
    var r := sorted[..n];
    assert sorted == r + sorted[n..];
    forall x, y | x in multiset(sorted) - multiset(r) && y in r
      ensures TextLe(x.createdAt, y.createdAt)
    {
      assert x in multiset(sorted[n..]);
      var j :| 0 <= j < |sorted[n..]| && sorted[n..][j] == x;
      var i :| 0 <= i < |r| && r[i] == y;
      assert sorted[n + j] == x && sorted[i] == y && i < n + j;
    }
  }

  /** The rows `getMessages` selects: those with a message, newest first, the
      first 50. Rows that tie on `created_at` may come in any order in SQLite;
      the model fixes one. */
  function QueryRows(t: Table): (r: seq<RsvpRow>)
    ensures |r| <= MessageLimit
    ensures forall x :: x in r ==> x in t.rows && HasMessage(x)
    ensures NewestFirst(r)
    ensures var n := |Filter(t.rows, HasMessage)|;
            |r| == (if n < MessageLimit then n else MessageLimit)
  {
    var withMessage := Filter(t.rows, HasMessage);
    var r := TopNewest(withMessage, MessageLimit);
    assert forall x :: x in r ==> x in multiset(withMessage);
    r
  }

  /** The query keeps the newest rows: what it returns is drawn from the rows
      with a message, and none of those it leaves out is newer than one it
      returns. */
  lemma QueryKeepsNewest(t: Table)
    ensures var withMessage := Filter(t.rows, HasMessage);
            && multiset(QueryRows(t)) <= multiset(withMessage)
            && forall x, y :: x in multiset(withMessage) - multiset(QueryRows(t)) && y in QueryRows(t)
                 ==> TextLe(x.createdAt, y.createdAt)
  {
  }

  /** `SELECT name, message, created_at`: a NULL message (never selected) reads
      as ''. */
  function Project(row: RsvpRow): (m: Message)
    ensures m.name == row.name && m.createdAt == row.createdAt
    ensures HasMessage(row) ==> m.message == row.message.value
  {
    Message(row.name, row.message.GetOr(""), row.createdAt)
  }

  /** `getMessages`: the projections of the rows the query selects, in the
      query's order: as many non-empty messages as are stored, up to 50,
      newest first, each the projection of a stored row. */
  function GetMessages(t: Table): (r: seq<Message>)
    ensures |r| <= MessageLimit
    ensures forall i :: 0 <= i < |r| ==> r[i].message != ""
    ensures forall i :: 0 <= i < |r| ==> exists x :: x in t.rows && HasMessage(x) && Project(x) == r[i]
    ensures forall i, j :: 0 <= i < j < |r| ==> TextLe(r[j].createdAt, r[i].createdAt)
    ensures var n := |Filter(t.rows, HasMessage)|;
            |r| == (if n < MessageLimit then n else MessageLimit)
    ensures |r| == |QueryRows(t)| && forall i :: 0 <= i < |r| ==> r[i] == Project(QueryRows(t)[i])
  {
    var rows := QueryRows(t);
    var r := ProjectRows(rows);
    forall i | 0 <= i < |r|
      ensures exists x :: x in t.rows && HasMessage(x) && Project(x) == r[i]
    {
      assert rows[i] in rows;
    }
    r
  }

  function ProjectRows(rows: seq<RsvpRow>): (r: seq<Message>)
    ensures |r| == |rows|
    ensures forall i :: 0 <= i < |rows| ==> r[i] == Project(rows[i])
  {
    seq(|rows|, i requires 0 <= i < |rows| => Project(rows[i]))
  }

  /** A row saved without a message never reaches the message list. */
  lemma SavedWithoutMessageHidden(t: Table, data: RsvpInput, now: string)
    requires data.message.None? || data.message == Some("")
    ensures Filter(SaveRsvp(t, data, now).rows, HasMessage) == Filter(t.rows, HasMessage)
    ensures QueryRows(SaveRsvp(t, data, now)) == QueryRows(t)
  {
    var t' := SaveRsvp(t, data, now);
    var row := t'.rows[|t.rows|];
    assert t'.rows == t.rows + [row];
    FilterAppend(t.rows, [row], HasMessage);
    assert !HasMessage(row);
    FilterNone([row], HasMessage);
  }

  /** When no stored row carries a message, the message list is empty,
      whatever else the table holds. */
  lemma NoMessagesEmptyList(t: Table)
    requires forall x :: x in t.rows ==> !HasMessage(x)
    ensures GetMessages(t) == []
  {
    FilterNone(t.rows, HasMessage);
  }

  /** With at most 50 rows carrying a message, the query selects all of them. */
  lemma FewMessagesAllSelected(t: Table)
    requires |Filter(t.rows, HasMessage)| <= MessageLimit
    ensures multiset(QueryRows(t)) == multiset(Filter(t.rows, HasMessage))
  {
    QueryKeepsNewest(t);
    SubMultisetOfSameSize(multiset(QueryRows(t)), multiset(Filter(t.rows, HasMessage)));
  }

  /** A row saved with a message is selected as long as fewer than 50 other
      rows carry one. */
  lemma SavedMessageShown(t: Table, data: RsvpInput, now: string)
    requires data.message.Some? && data.message.value != ""
    requires |Filter(t.rows, HasMessage)| < MessageLimit
    ensures SaveRsvp(t, data, now).rows[|t.rows|] in QueryRows(SaveRsvp(t, data, now))
  {
    var t' := SaveRsvp(t, data, now);
    var row := t'.rows[|t.rows|];
    assert t'.rows == t.rows + [row];
    FilterAppend(t.rows, [row], HasMessage);
    assert Filter([row], HasMessage) == [row];
    var withMessage := Filter(t'.rows, HasMessage);
    assert withMessage == Filter(t.rows, HasMessage) + [row];
    FewMessagesAllSelected(t');
    assert row in multiset(withMessage);
    assert row in multiset(QueryRows(t'));
  }

  /** A row with a message that is strictly newer than every other row
      heads the query's result. */
  lemma StrictlyNewestHeads(t: Table, r: RsvpRow)
    requires r in t.rows && HasMessage(r)
    requires forall x :: x in t.rows && x != r ==> !TextLe(r.createdAt, x.createdAt)
    ensures |QueryRows(t)| > 0 && QueryRows(t)[0] == r
  {
    var w := Filter(t.rows, HasMessage);
    var k :| 0 <= k < |t.rows| && t.rows[k] == r;
    assert r in w;
    assert r in multiset(w);
    var q := QueryRows(t);
    QueryKeepsNewest(t);
    assert TextLe(r.createdAt, q[0].createdAt) by {
      if r in multiset(q) {
        var j :| 0 <= j < |q| && q[j] == r;
        if j == 0 {
          TextLeReflexive(r.createdAt);
        } else {
          assert NewestFirst(q);
        }
      } else {
        assert r in multiset(w) - multiset(q);
        assert q[0] in q;
      }
    }
    assert q[0] in q;
  }

  /** A row saved with a message at a time later than every stored
      timestamp heads the next message list, however many rows there are. */
  lemma SavedMessageFirst(t: Table, data: RsvpInput, now: string)
    requires data.message.Some? && data.message.value != ""
    requires forall x :: x in t.rows ==> !TextLe(now, x.createdAt)
    ensures |QueryRows(SaveRsvp(t, data, now))| > 0
    ensures QueryRows(SaveRsvp(t, data, now))[0] == SaveRsvp(t, data, now).rows[|t.rows|]
  {
    var t' := SaveRsvp(t, data, now);
    var row := t'.rows[|t.rows|];
    assert t'.rows == t.rows + [row];
    assert forall x :: x in t'.rows && x != row ==> x in t.rows;
    StrictlyNewestHeads(t', row);
  }

  lemma SubMultisetOfSameSize<T>(a: multiset<T>, b: multiset<T>)
    requires a <= b && |a| == |b|
    ensures a == b
  {
    var d := b - a;
    assert b == a + d;
    assert |b| == |a| + |d|;
  }
}

=== FILE: gallery.dfy ===
/** The photo gallery's lightbox (components/gallery.tsx): which image is
    enlarged, if any, and wrap-around navigation through the six images. */
module Gallery {
  import opened Wrappers

  /** `images.length`. */
  const ImageCount: nat := 6

  /** The selected image index (None when the lightbox is closed) and whether
      page scrolling is locked (`document.body.style.overflow = "hidden"`). */
  datatype Lightbox = Lightbox(selected: Option<nat>, scrollLocked: bool)

  const Initial: Lightbox := Lightbox(None, false)

  /** The lightbox is open exactly while page scrolling is locked. */
  predicate Consistent(l: Lightbox)
  {
    l.selected.Some? <==> l.scrollLocked
  }

  /** The gallery starts closed and unlocked, and opening, closing and
      navigating keep the lightbox open exactly while scrolling is locked. */
  lemma AlwaysConsistent(l: Lightbox, i: nat, d: Direction)
    requires Consistent(l)
    ensures Consistent(Initial)
    ensures Consistent(OpenLightbox(l, i)) && Consistent(CloseLightbox(l)) && Consistent(Navigate(l, d))
  {
  }

  datatype Direction = Next | Prev

  /** The index one step from `i`, wrapping at either end. */
  function Step(i: nat, d: Direction): (j: nat)
    ensures j < ImageCount
    ensures d == Next && i + 1 < ImageCount ==> j == i + 1
    ensures d == Prev && 0 < i < ImageCount ==> j == i - 1
    ensures d == Next && i + 1 == ImageCount ==> j == 0
    ensures d == Prev && i == 0 ==> j == ImageCount - 1
  {
    match d
    case Next => (i + 1) % ImageCount
    case Prev => (i - 1 + ImageCount) % ImageCount
  }

  function OpenLightbox(l: Lightbox, i: nat): (r: Lightbox)
    ensures r.selected == Some(i) && Consistent(r)
  {
    Lightbox(Some(i), true)
  }

  function CloseLightbox(l: Lightbox): (r: Lightbox)
    ensures r.selected.None? && Consistent(r)
  {
    Lightbox(None, false)
  }

  /** `navigateImage`: nothing happens while the lightbox is closed. */
  function Navigate(l: Lightbox, d: Direction): (r: Lightbox)
    ensures l.selected.None? ==> r == l
    ensures l.selected.Some? ==> r.selected == Some(Step(l.selected.value, d)) && r.selected.value < ImageCount
    ensures r.scrollLocked == l.scrollLocked
    ensures Consistent(l) ==> Consistent(r)
  {
    match l.selected
    case None => l
    case Some(i) => Lightbox(Some(Step(i, d)), l.scrollLocked)
  }

  /** Stepping forward then back, or back then forward, returns to any
      index of the gallery. */
  lemma StepInverse(i: nat)
    requires i < ImageCount
    ensures Step(Step(i, Next), Prev) == i
    ensures Step(Step(i, Prev), Next) == i
  {
  }

  /** In an open lightbox, "next" then "previous" (or the reverse) shows the
      same image again, with the scroll lock untouched. */
  lemma NavigateBackAndForth(l: Lightbox)
    requires l.selected.Some? && l.selected.value < ImageCount
    ensures Navigate(Navigate(l, Next), Prev) == l
    ensures Navigate(Navigate(l, Prev), Next) == l
  {
    StepInverse(l.selected.value);
  }

  /** `k` forward steps from `i`. */
  function Forward(i: nat, k: nat): nat
    decreases k
  {
    if k == 0 then i else Step(Forward(i, k - 1), Next)
  }

  /** `k` forward steps from index `i` land on `(i + k) % 6`. */
  lemma {:induction false} ForwardIsModular(i: nat, k: nat)
    requires i < ImageCount
    ensures Forward(i, k) == (i + k) % ImageCount
    decreases k
  {
    if k > 0 {
      ForwardIsModular(i, k - 1);
      var p := (i + k - 1) % ImageCount;
      assert Forward(i, k) == (p + 1) % ImageCount;
      assert i + k - 1 == ImageCount * ((i + k - 1) / ImageCount) + p;
      assert (p + 1) % ImageCount == (i + k) % ImageCount by {
        var q := (i + k - 1) / ImageCount;
        assert i + k == ImageCount * q + (p + 1);
        if p + 1 < ImageCount {
          assert (i + k) / ImageCount == q;
        } else {
          assert i + k == ImageCount * (q + 1);
        }
      }
    }
  }

  /** Six forward steps bring the lightbox back to the image it started on. */
  lemma FullCycle(i: nat)
    requires i < ImageCount
    ensures Forward(i, ImageCount) == i
  {
    ForwardIsModular(i, ImageCount);
  }
}

=== FILE: message_context.dfy ===
/** The page-wide guest-message list shared through a React context
    (contexts/message-context.tsx). */
module MessageContext {
  import opened Wrappers

  /** A guest message as displayed: exactly a name, a text and a creation time. */
  datatype Message = Message(name: string, message: string, createdAt: string)

  /** The value a provider hands to its consumers: the current list, newest
      first. `setMessages` replaces `messages` wholesale. */
  datatype Context = Context(messages: seq<Message>)

  /** A freshly mounted provider holds no messages. */
  const Initial: Context := Context([])

  /** The error `useMessages` throws outside a provider. */
  const OutsideProvider: string := "useMessages must be used within a MessageProvider"

  /** Optimistic insert: the new message goes in front of everything held. */
  function AddMessage(c: Context, m: Message): (r: Context)
    ensures |r.messages| == |c.messages| + 1
    ensures r.messages[0] == m && r.messages[1..] == c.messages
    ensures multiset(r.messages) == multiset(c.messages) + multiset{m}
  {
    Context([m] + c.messages)
  }

  /** Reading the context: the provider's value, or the thrown error when no
      provider encloses the consumer. */
  function UseMessages(enclosing: Option<Context>): (r: Result<Context, string>)
    ensures r.Success? <==> enclosing.Some?
    ensures r.Success? ==> r.value == enclosing.value
    ensures r.Failure? ==> r.error == OutsideProvider
  {
    match enclosing
    case Some(c) => Success(c)
    case None => Failure(OutsideProvider)
  }
}

=== FILE: message_wall.dfy ===
/** The guest-message wall (components/message-wall.tsx): each fetch of the
    server's message list is merged into the shared list, appending only the
    server messages whose de-duplication key is not already held. */
module MessageWall {
  import opened Wrappers
  import opened Seqs
  import opened MessageContext

  /** The de-duplication key `name-message-created_at`: the three fields joined
      by a dash. */
  function Key(m: Message): (k: string)
    ensures |k| == |m.name| + |m.message| + |m.createdAt| + 2
    ensures k[..|m.name|] == m.name && k[|m.name|] == '-'
    ensures k[|m.name| + 1..] == m.message + "-" + m.createdAt
  {
    m.name + "-" + (m.message + "-" + m.createdAt)
  }

  /** The keys of the `existingMessagesMap` built from the held list. */
  function KeysOf(held: seq<Message>): set<string>
  {
    set m | m in held :: Key(m)
  }

  /** The server messages whose key is not held, in server order. */
  function NewMessages(held: seq<Message>, server: seq<Message>): seq<Message>
  {
    var keys := KeysOf(held);
    Filter(server, (m: Message) => Key(m) !in keys)
  }

  /** Some server message has a key that is not held. */
  predicate HasUnheld(held: seq<Message>, server: seq<Message>)
  {
    exists s :: s in server && Key(s) !in KeysOf(held)
  }

  /** The list `fetchMessages` passes to `setMessages` for a response whose
      `messages` field is `server`, or None when it makes no call: the field
      is missing, the list is empty, or every server key is already held. */
  function MergeUpdate(held: seq<Message>, server: Option<seq<Message>>): (u: Option<seq<Message>>)
    ensures u.Some? <==> server.Some? && HasUnheld(held, server.value)
    ensures u.Some? ==> |u.value| > |held| && u.value[..|held|] == held
  {
    if server.None? || |server.value| == 0 then None
    else
      var s := server.value;
      var newOnes := NewMessages(held, s);
      if |newOnes| > 0 then
        assert newOnes[0] in newOnes;
        Some(held + newOnes)
      else
        assert !HasUnheld(held, s) by {
          forall x | x in s ensures Key(x) in KeysOf(held) {
            var i :| 0 <= i < |s| && s[i] == x;
          }
        }
        None
  }

  /** The held list after a successful fetch of `server`. */
  function Merge(held: seq<Message>, server: seq<Message>): (r: seq<Message>)
    ensures |held| <= |r| <= |held| + |server|
    ensures r[..|held|] == held
    ensures forall x :: x in r[|held|..] ==> x in server && Key(x) !in KeysOf(held)
    ensures forall s :: s in server && Key(s) !in KeysOf(held) ==> s in r[|held|..]
    ensures KeysOf(r) == KeysOf(held) + KeysOf(server)
  {
    var r := MergeUpdate(held, Some(server)).GetOr(held);
    UpdateAppendsNew(held, server);
    NewMessagesCover(held, server);
    assert r[|held|..] == NewMessages(held, server);
    r
  }

  /** Whether or not an update is made, the list afterwards is the held list
      followed by the new messages. */
  lemma UpdateAppendsNew(held: seq<Message>, server: seq<Message>)
    ensures MergeUpdate(held, Some(server)).GetOr(held) == held + NewMessages(held, server)
  {
    if MergeUpdate(held, Some(server)).None? {
      assert NewMessages(held, server) == [];
    }
  }

  /** The new messages are exactly the server messages with unheld keys, and
      with them the keys become the held keys plus the server keys. */
  lemma NewMessagesCover(held: seq<Message>, server: seq<Message>)
    ensures forall s :: s in server && Key(s) !in KeysOf(held) ==> s in NewMessages(held, server)
    ensures KeysOf(held + NewMessages(held, server)) == KeysOf(held) + KeysOf(server)
  {
    var n := NewMessages(held, server);
    forall s | s in server && Key(s) !in KeysOf(held) ensures s in n {
      var i :| 0 <= i < |server| && server[i] == s;
    }
    KeysOfAppend(held, n);
  }

  lemma KeysOfAppend(a: seq<Message>, b: seq<Message>)
    ensures KeysOf(a + b) == KeysOf(a) + KeysOf(b)
  {
    assert forall m :: m in a + b <==> m in a || m in b;
  }

  /** After a merge, the result is the held list followed by exactly the server
      messages whose key was absent, in server order; so its length is the held
      length plus the number of such messages. */
  lemma MergeAppendsAbsent(held: seq<Message>, server: seq<Message>)
    ensures Merge(held, server) == held + Filter(server, (m: Message) => Key(m) !in KeysOf(held))
    ensures |Merge(held, server)| == |held| + |Filter(server, (m: Message) => Key(m) !in KeysOf(held))|
  {
    var r := Merge(held, server);
    var keys := KeysOf(held);
    assert r == r[..|held|] + r[|held|..];
  }

  /** A fetch that yields no list, or an empty one, changes nothing. */
  lemma EmptyServerListChangesNothing(held: seq<Message>)
    ensures MergeUpdate(held, None) == None
    ensures MergeUpdate(held, Some([])) == None
    ensures Merge(held, []) == held
  {
  }

  /** When every server key is already held, no update is made. */
  lemma AllHeldNoUpdate(held: seq<Message>, server: seq<Message>)
    requires forall s :: s in server ==> Key(s) in KeysOf(held)
    ensures MergeUpdate(held, Some(server)) == None
    ensures Merge(held, server) == held
  {
  }

  /** Merging the same server list twice is the same as merging it once, and
      the second fetch makes no update: the effect that re-runs whenever the
      held list changes settles after at most one effective merge. */
  lemma {:induction false} MergeIdempotent(held: seq<Message>, server: seq<Message>)
    ensures Merge(Merge(held, server), server) == Merge(held, server)
    ensures MergeUpdate(Merge(held, server), Some(server)) == None
  {
    var once := Merge(held, server);
    assert forall s :: s in server ==> Key(s) in KeysOf(once) by {
      forall s | s in server ensures Key(s) in KeysOf(once) {
        assert Key(s) in KeysOf(server);
      }
    }
    AllHeldNoUpdate(once, server);
  }

  /** The provider starts empty, so the first successful fetch shows the
      server's list exactly as sent. */
  lemma {:induction false} FirstFetchShowsServerList(server: seq<Message>)
    ensures Merge(Initial.messages, server) == server
  {
    MergeAppendsAbsent([], server);
    FilterAll(server, (m: Message) => Key(m) !in KeysOf([]));
  }

  /** Duplicates inside one server list are not removed: only the held keys
      are consulted. */
  lemma ServerDuplicatesKept(m: Message)
    ensures Merge([], [m, m]) == [m, m]
  {
    FirstFetchShowsServerList([m, m]);
  }

  /** Equal triples give equal keys, but not conversely: a dash inside a name
      or a text lets two different messages share a key, and the server's copy
      of the second is then dropped. */
  lemma KeyCollision()
    ensures var a := Message("Ana-Budi", "Hi", "2025-01-01 10:00:00");
            var b := Message("Ana", "Budi-Hi", "2025-01-01 10:00:00");
            a != b && Key(a) == Key(b) && Merge([a], [b]) == [a]
  {
    var a := Message("Ana-Budi", "Hi", "2025-01-01 10:00:00");
    var b := Message("Ana", "Budi-Hi", "2025-01-01 10:00:00");
    assert a.name != b.name by { assert |a.name| != |b.name|; }
    assert Key(a) == Key(b);
    assert Key(b) in KeysOf([a]);
    AllHeldNoUpdate([a], [b]);
  }

  /** In `name + "-" + rest` with a dash-free `name`, the first dash sits
      just after `name`. */
  lemma FirstDashAt(name: string, rest: string)
    requires '-' !in name
    ensures (name + "-" + rest)[|name|] == '-'
    ensures forall i :: 0 <= i < |name| ==> (name + "-" + rest)[i] != '-'
  {
    assert forall i :: 0 <= i < |name| ==> (name + "-" + rest)[i] == name[i];
  }

  /** Splitting at the first dash recovers both parts. */
  lemma SplitAtFirstDash(n1: string, r1: string, n2: string, r2: string)
    requires '-' !in n1 && '-' !in n2
    requires n1 + "-" + r1 == n2 + "-" + r2
    ensures n1 == n2 && r1 == r2
  {
    var k := n1 + "-" + r1;
    FirstDashAt(n1, r1);
    FirstDashAt(n2, r2);
    assert |n1| == |n2|;
    assert n1 == k[..|n1|] == n2;
    assert r1 == k[|n1| + 1..] == r2;
  }

  /** When neither names nor texts contain a dash, the key identifies the
      triple. */
  lemma KeyInjectiveWithoutDashes(a: Message, b: Message)
    requires '-' !in a.name && '-' !in b.name && '-' !in a.message && '-' !in b.message
    requires Key(a) == Key(b)
    ensures a == b
  {
    SplitAtFirstDash(a.name, a.message + "-" + a.createdAt, b.name, b.message + "-" + b.createdAt);
    SplitAtFirstDash(a.message, a.createdAt, b.message, b.createdAt);
  }

  /** Optimistic insert followed by the server's confirmation: when every
      server message either shares the new message's key or is already held,
      the merge adds nothing, so the list is one longer than before the insert
      and the new message's key occurs once more than before. */
  lemma OptimisticThenConfirmed(held: seq<Message>, m: Message, server: seq<Message>)
    requires forall s :: s in server ==> Key(s) == Key(m) || Key(s) in KeysOf(held)
    ensures Merge(AddMessage(Context(held), m).messages, server) == [m] + held
    ensures |Merge(AddMessage(Context(held), m).messages, server)| == |held| + 1
  {
    var added := AddMessage(Context(held), m).messages;
    assert Key(m) in KeysOf(added) by { assert added[0] == m; }
    assert KeysOf(held) <= KeysOf(added) by {
      forall x | x in held ensures x in added { }
    }
    AllHeldNoUpdate(added, server);
  }

  /** What `fetchMessages` reports: the request failed (network error, non-OK
      status or unreadable body), or it produced the body's `messages` field. */
  datatype FetchOutcome = Failed | Fetched(messages: Option<seq<Message>>)

  /** The wall's own state besides the shared list. */
  datatype WallState = WallState(isLoading: bool, error: Option<string>)

  /** A wall starts out loading, with no error. */
  const InitialWall: WallState := WallState(true, None)

  /** The error text shown for any failed fetch. */
  const LoadError: string := "Could not load messages. Please try again later."

  /** One completed fetch cycle: the update to the shared list (None when
      `setMessages` is not called) and the wall state after `finally`. */
  function CompleteFetch(held: seq<Message>, wall: WallState, outcome: FetchOutcome)
    : (r: (Option<seq<Message>>, WallState))
    ensures !r.1.isLoading
    ensures outcome.Failed? ==> r.0.None? && r.1.error == Some(LoadError)
    ensures outcome.Fetched? ==> r.1.error == wall.error
    ensures r.0.Some? ==> outcome.Fetched? && |r.0.value| > |held| && r.0.value[..|held|] == held
    ensures wall.error.Some? ==> r.1.error.Some?
    ensures outcome.Fetched? ==> r.0 == MergeUpdate(held, outcome.messages)
  {
    match outcome
    case Failed => (None, WallState(false, Some(LoadError)))
    case Fetched(server) => (MergeUpdate(held, server), WallState(false, wall.error))
  }

  /** A freshly mounted wall shows the loading skeleton, whatever the shared
      list holds. */
  lemma FirstRenderShowsSkeleton(held: seq<Message>)
    ensures Render(InitialWall, held) == Skeleton
  {
  }

  /** What the wall renders, in the order the component checks. */
  datatype View = Skeleton | ErrorText(text: string) | FirstMessagePrompt | Cards(shown: seq<Message>)

  function Render(wall: WallState, held: seq<Message>): (v: View)
    ensures v.Cards? <==> !wall.isLoading && wall.error.None? && |held| > 0
    ensures v.Cards? ==> v.shown == held
    ensures v.ErrorText? <==> !wall.isLoading && wall.error.Some?
    ensures v.ErrorText? ==> v.text == wall.error.value
    ensures wall.isLoading ==> v == Skeleton
    ensures !wall.isLoading && wall.error.None? && |held| == 0 ==> v == FirstMessagePrompt
  {
    if wall.isLoading then Skeleton
    else if wall.error.Some? then ErrorText(wall.error.value)
    else if |held| == 0 then FirstMessagePrompt
    else Cards(held)
  }

  /** Once a fetch has failed, the error stays: later successful fetches never
      clear it, so after any further fetch the wall shows the error text. */
  lemma {:induction false} ErrorIsSticky(held: seq<Message>, wall: WallState, later: seq<FetchOutcome>)
    requires wall.error.Some?
    ensures FetchAll(held, wall, later).1.error.Some?
    ensures |later| > 0 ==> Render(FetchAll(held, wall, later).1, FetchAll(held, wall, later).0).ErrorText?
    decreases |later|
  {
    if |later| > 0 {
      var (h, w) := CompleteAndApply(held, wall, later[0]);
      ErrorIsSticky(h, w, later[1..]);
      if |later| > 1 {
      } else {
        assert later[1..] == [];
      }
    }
  }

  /** Apply one fetch cycle to both the shared list and the wall. */
  function CompleteAndApply(held: seq<Message>, wall: WallState, outcome: FetchOutcome)
    : (seq<Message>, WallState)
  {
    var (u, w) := CompleteFetch(held, wall, outcome);
    (u.GetOr(held), w)
  }

  /** A run of fetch cycles. */
  function FetchAll(held: seq<Message>, wall: WallState, outcomes: seq<FetchOutcome>)
    : (seq<Message>, WallState)
    decreases |outcomes|
  {
    if |outcomes| == 0 then (held, wall)
    else
      var (h, w) := CompleteAndApply(held, wall, outcomes[0]);
      FetchAll(h, w, outcomes[1..])
  }

  /** A successful fetch leaves the shared list merged with the server's
      list, and polling the same list again changes nothing further. */
  lemma {:induction false} FetchCycleMerges(held: seq<Message>, wall: WallState, server: seq<Message>)
    ensures CompleteAndApply(held, wall, Fetched(Some(server))).0 == Merge(held, server)
    ensures FetchAll(held, wall, [Fetched(Some(server)), Fetched(Some(server))]).0 == Merge(held, server)
  {
    var o := Fetched(Some(server));
    var (h, w) := CompleteAndApply(held, wall, o);
    assert h == Merge(held, server);
    MergeIdempotent(held, server);
    var (h2, w2) := CompleteAndApply(h, w, o);
    assert h2 == h;
    FetchTwice(held, wall, o);
  }

  /** Two fetch cycles are one cycle applied after the other. */
  lemma FetchTwice(held: seq<Message>, wall: WallState, o: FetchOutcome)
    ensures var (h, w) := CompleteAndApply(held, wall, o);
            FetchAll(held, wall, [o, o]) == CompleteAndApply(h, w, o)
  {
    var (h, w) := CompleteAndApply(held, wall, o);
    assert [o, o][1..] == [o];
    var (h2, w2) := CompleteAndApply(h, w, o);
    assert FetchAll(h, w, [o]) == FetchAll(h2, w2, []) by {
      assert [o][1..] == [];
    }
  }
}

=== FILE: music_player.dfy ===
/** The background-music control (components/music-player.tsx). The audio
    element is abstract: the model issues play and pause requests to it, keeps
    its playback position, and receives its play, pause and ended events. */
module MusicPlayer {
  import opened Wrappers

  /** Where playback (re)starts: 1:24 into the track, in seconds. */
  const StartPosition: real := 84.0

  /** The audio element as far as the control sees it: its playback position. */
  datatype Audio = Audio(position: real)

  /** The component's state: the audio element once created, the displayed
      playing flag, whether the listener paused by hand, and the previous value
      of the `startPlaying` prop. */
  datatype Player = Player(audio: Option<Audio>, isPlaying: bool, userPaused: bool, prevStartPlaying: bool)

  /** The first render with prop `startPlaying`: no audio element yet. */
  function Initial(startPlaying: bool): (p: Player)
    ensures !p.isPlaying && !p.userPaused && p.audio.None?
    ensures p.prevStartPlaying == startPlaying
  {
    Player(None, false, false, startPlaying)
  }

  /** The mount effect: create the element, positioned at 1:24, unless one
      already exists. */
  function Mount(p: Player): (r: Player)
    ensures r.audio.Some?
    ensures p.audio.Some? ==> r == p
    ensures p.audio.None? ==> r == p.(audio := Some(Audio(StartPosition)))
  {
    if p.audio.Some? then p else p.(audio := Some(Audio(StartPosition)))
  }

  /** What the control asks of the audio element. */
  datatype Command = NoCommand | RequestPause | RequestPlay

  /** `togglePlay`. While playing it requests a pause and records that the
      listener paused; otherwise it rewinds to 1:24 when within the first
      second, requests play and clears that record. The displayed flag is left
      to the element's events. */
  function TogglePlay(p: Player): (r: (Player, Command))
    ensures p.audio.None? ==> r == (p, NoCommand)
    ensures r.0.isPlaying == p.isPlaying && r.0.prevStartPlaying == p.prevStartPlaying
    ensures r.0.audio.Some? == p.audio.Some?
    ensures p.audio.Some? && p.isPlaying ==> r.1 == RequestPause && r.0.userPaused && r.0.audio == p.audio
    ensures p.audio.Some? && !p.isPlaying ==> r.1 == RequestPlay && !r.0.userPaused
    ensures p.audio.Some? && !p.isPlaying && p.audio.value.position < 1.0 ==> r.0.audio.value.position == StartPosition
    ensures p.audio.Some? && !p.isPlaying && p.audio.value.position >= 1.0 ==> r.0.audio == p.audio
  {
    match p.audio
    case None => (p, NoCommand)
    case Some(a) =>
      if p.isPlaying then (p.(userPaused := true), RequestPause)
      else
        var a' := if a.position < 1.0 then Audio(StartPosition) else a;
        (p.(audio := Some(a'), userPaused := false), RequestPlay)
  }

  /** What the audio element reports back. A play requested by the toggle can
      be rejected (`TogglePlayRejected`); a rejected autoplay is only logged. */
  datatype AudioEvent = Played | Paused | Ended | TogglePlayRejected | AutoplayRejected

  /** The event handlers, via `updatePlayingState`: the new displayed flag and
      the value passed to `onStateChange`, if any. */
  function OnAudioEvent(p: Player, e: AudioEvent): (r: (Player, Option<bool>))
    ensures e == Played ==> r.0.isPlaying
    ensures e in {Paused, Ended, TogglePlayRejected} ==> !r.0.isPlaying
    ensures e == AutoplayRejected ==> r == (p, None)
    ensures r.1.Some? ==> r.1.value == r.0.isPlaying
    ensures e != AutoplayRejected ==> r.1 == Some(r.0.isPlaying)
    ensures r.0.audio == p.audio && r.0.userPaused == p.userPaused && r.0.prevStartPlaying == p.prevStartPlaying
  {
    match e
    case Played => (p.(isPlaying := true), Some(true))
    case Paused => (p.(isPlaying := false), Some(false))
    case Ended => (p.(isPlaying := false), Some(false))
    case TogglePlayRejected => (p.(isPlaying := false), Some(false))
    case AutoplayRejected => (p, None)
  }

  /** The `startPlaying` effect, run with the current prop value whenever the
      prop or `userPaused` changes. It acts only when the prop differs from its
      previous value, records the new value, and then autoplays from 1:24 if
      the prop became true, an element exists and the listener has not paused. */
  function StartPlayingEffect(p: Player, startPlaying: bool): (r: (Player, Command))
    ensures p.prevStartPlaying == startPlaying ==> r == (p, NoCommand)
    ensures r.0.prevStartPlaying == startPlaying
    ensures r.1 == RequestPlay <==> p.prevStartPlaying != startPlaying && startPlaying && p.audio.Some? && !p.userPaused
    ensures r.1 == RequestPlay ==> r.0.audio == Some(Audio(StartPosition))
    ensures r.1 != RequestPlay ==> r.0.audio == p.audio
    ensures r.1 != RequestPause
    ensures r.0.isPlaying == p.isPlaying && r.0.userPaused == p.userPaused
  {
    if p.prevStartPlaying == startPlaying then (p, NoCommand)
    else
      var p' := p.(prevStartPlaying := startPlaying);
      if startPlaying && p.audio.Some? && !p.userPaused then
        (p'.(audio := Some(Audio(StartPosition))), RequestPlay)
      else (p', NoCommand)
  }

  /** The first render never autoplays: the previous value starts equal to
      the prop. */
  lemma NoAutoplayOnFirstRender(startPlaying: bool)
    ensures StartPlayingEffect(Mount(Initial(startPlaying)), startPlaying).1 == NoCommand
  {
  }

  /** The inputs the component reacts to. */
  datatype Input = Toggle | StartPlayingProp(value: bool) | Event(e: AudioEvent)

  /** One input: the next state and the command issued, if any. */
  function Step(p: Player, i: Input): (Player, Command)
  {
    match i
    case Toggle => TogglePlay(p)
    case StartPlayingProp(v) => StartPlayingEffect(p, v)
    case Event(e) => (OnAudioEvent(p, e).0, NoCommand)
  }

  /** A run of inputs: the final state and the commands issued in order. */
  function Run(p: Player, inputs: seq<Input>): (r: (Player, seq<Command>))
    ensures |r.1| == |inputs|
    decreases |inputs|
  {
    if |inputs| == 0 then (p, [])
    else
      var (p1, c) := Step(p, inputs[0]);
      var (p2, cs) := Run(p1, inputs[1..]);
      (p2, [c] + cs)
  }

  /** Once the listener has paused, no change of `startPlaying` restarts the
      music until the listener toggles again. */
  lemma {:induction false} PausedStaysPaused(p: Player, inputs: seq<Input>)
    requires p.userPaused
    requires forall i :: 0 <= i < |inputs| ==> inputs[i] != Toggle
    ensures Run(p, inputs).0.userPaused
    ensures forall k :: 0 <= k < |inputs| ==> Run(p, inputs).1[k] != RequestPlay
    decreases |inputs|
  {
    if |inputs| > 0 {
      var (p1, c) := Step(p, inputs[0]);
      PausedStaysPaused(p1, inputs[1..]);
      var (p2, cs) := Run(p1, inputs[1..]);
      assert Run(p, inputs).1 == [c] + cs;
    }
  }

  /** The displayed flag moves only on the element's events: a run without
      events leaves it as it was. */
  lemma {:induction false} OnlyEventsMovePlaying(p: Player, inputs: seq<Input>)
    requires forall i :: 0 <= i < |inputs| ==> !inputs[i].Event?
    ensures Run(p, inputs).0.isPlaying == p.isPlaying
    decreases |inputs|
  {
    if |inputs| > 0 {
      var (p1, c) := Step(p, inputs[0]);
      OnlyEventsMovePlaying(p1, inputs[1..]);
    }
  }

  /** The effect is edge-triggered: running it again with the same prop value
      does nothing, whatever happened to `userPaused` in between. */
  lemma EdgeTriggered(p: Player, startPlaying: bool, paused: bool)
    ensures var p1 := StartPlayingEffect(p, startPlaying).0;
            StartPlayingEffect(p1.(userPaused := paused), startPlaying) == (p1.(userPaused := paused), NoCommand)
  {
  }
}

=== FILE: routes.dfy ===
/** The two API handlers: `POST /api/rsvp` (app/api/rsvp/route.ts) validates
    and stores a submission; `GET /api/messages` (app/api/messages/route.ts)
    wraps `getMessages`. */
module Routes {
  import opened Wrappers
  import opened Seqs
  import opened MessageContext
  import opened Db
  import opened Strings
  import MessageWall

  /** The fields of the JSON body the handler reads; None when a field is
      absent or null. */
  datatype RsvpBody = RsvpBody(
    name: Option<string>,
    attending: Option<string>,
    guestCount: Option<string>,
    message: Option<string>)

  datatype Payload = Acknowledged | MessageList(messages: seq<Message>) | ErrorText(error: string)

  datatype Response = Response(status: nat, payload: Payload)

  const MissingFields: string := "Missing required fields"
  const SaveFailed: string := "Failed to save RSVP"
  const FetchFailed: string := "Failed to fetch messages"

  /** JavaScript falsiness of a string field: absent, null or empty. */
  predicate Falsy(v: Option<string>)
  {
    v.None? || v.value == ""
  }

  /** `data.guestCount || '0'`. */
  function GuestCountOrDefault(v: Option<string>): (r: string)
    ensures r != ""
    ensures Falsy(v) ==> r == "0"
    ensures !Falsy(v) ==> r == v.value
  {
    if Falsy(v) then "0" else v.value
  }

  /** The record `POST` hands to `saveRsvp` for a body that passed validation. */
  function ToInput(b: RsvpBody): (d: RsvpInput)
    requires !Falsy(b.name) && !Falsy(b.attending)
    ensures d.name == b.name.value && d.attending == b.attending.value
    ensures d.message == b.message
    ensures Falsy(b.guestCount) <==> d.guestCount == "0" && b.guestCount != Some("0")
    ensures !Falsy(b.guestCount) ==> d.guestCount == b.guestCount.value
  {
    RsvpInput(b.name.value, b.attending.value, GuestCountOrDefault(b.guestCount), b.message)
  }

  /** `POST /api/rsvp`. `body` is None when `request.json()` throws; `writeOk`
      is false when `saveRsvp` throws (the store cannot be opened or written),
      in which case the table is left as it was. Returns the response and the
      table afterwards. */
  function PostRsvp(body: Option<RsvpBody>, t: Table, writeOk: bool, now: string): (r: (Response, Table))
    ensures r.0.status in {200, 400, 500}
    ensures r.0.status == 400 <==> body.Some? && (Falsy(body.value.name) || Falsy(body.value.attending))
    ensures r.0.status == 400 ==> r.0.payload == ErrorText(MissingFields)
    ensures r.0.status == 200 <==> body.Some? && !Falsy(body.value.name) && !Falsy(body.value.attending) && writeOk
    ensures r.0.status == 200 ==> r.0.payload == Acknowledged && r.1 == SaveRsvp(t, ToInput(body.value), now)
    ensures r.0.status == 500 ==> r.0.payload == ErrorText(SaveFailed)
    ensures r.0.status != 200 ==> r.1 == t
  {
    match body
    case None => (Response(500, ErrorText(SaveFailed)), t)
    case Some(b) =>
      if Falsy(b.name) || Falsy(b.attending) then (Response(400, ErrorText(MissingFields)), t)
      else if !writeOk then (Response(500, ErrorText(SaveFailed)), t)
      else (Response(200, Acknowledged), SaveRsvp(t, ToInput(b), now))
  }

  /** `GET /api/messages`: `store` is None when `getMessages` throws. */
  function GetMessagesRoute(store: Option<Table>): (r: Response)
    ensures r.status == 200 <==> store.Some?
    ensures r.status == 200 ==> r.payload.MessageList? && |r.payload.messages| <= MessageLimit
    ensures store.Some? ==> r.payload == MessageList(GetMessages(store.value))
    ensures r.status != 200 ==> r == Response(500, ErrorText(FetchFailed))
  {
    match store
    case Some(t) => Response(200, MessageList(GetMessages(t)))
    case None => Response(500, ErrorText(FetchFailed))
  }

  /** What the wall's `fetchMessages` makes of a response: a non-OK status is
      a failure, an OK one yields the body's `messages` field. */
  function ClientOutcome(r: Response): (o: MessageWall.FetchOutcome)
    ensures o.Failed? <==> !(200 <= r.status < 300)
    ensures o.Fetched? && r.payload.MessageList? ==> o.messages == Some(r.payload.messages)
  {
    if !(200 <= r.status < 300) then MessageWall.Failed
    else if r.payload.MessageList? then MessageWall.Fetched(Some(r.payload.messages))
    else MessageWall.Fetched(None)
  }

  /** A submission with a name and an attendance but no guest count or
      message is stored with guest count "0" and an empty message, and leaves
      the message list as it was. */
  lemma SubmissionWithoutMessage(t: Table, name: string, attending: string, now: string)
    requires name != "" && attending != ""
    ensures var (resp, t') := PostRsvp(Some(RsvpBody(Some(name), Some(attending), None, None)), t, true, now);
            && resp == Response(200, Acknowledged)
            && t'.rows[|t.rows|].guestCount == "0"
            && t'.rows[|t.rows|].message == Some("")
            && GetMessages(t') == GetMessages(t)
  {
    var b := RsvpBody(Some(name), Some(attending), None, None);
    SavedWithoutMessageHidden(t, ToInput(b), now);
  }

  /** A submission with a message shows up in the next message list whenever
      fewer than 50 stored rows carry a message. */
  lemma SubmissionWithMessageShown(t: Table, name: string, attending: string, text: string, now: string)
    requires name != "" && attending != "" && text != ""
    requires |Filter(t.rows, HasMessage)| < MessageLimit
    ensures var (resp, t') := PostRsvp(Some(RsvpBody(Some(name), Some(attending), None, Some(text))), t, true, now);
            && resp.status == 200
            && Message(name, text, now) in GetMessages(t')
  {
    var b := RsvpBody(Some(name), Some(attending), None, Some(text));
    var t' := SaveRsvp(t, ToInput(b), now);
    SavedMessageShown(t, ToInput(b), now);
    var rows := QueryRows(t');
    var row := t'.rows[|t.rows|];
    var i :| 0 <= i < |rows| && rows[i] == row;
    assert GetMessages(t')[i] == Project(row);
  }

  /** A submission with a message, stamped later than every stored row, is
      the first message of the next list, however many messages are stored. */
  lemma SubmissionWithMessageFirst(t: Table, name: string, attending: string, text: string, now: string)
    requires name != "" && attending != "" && text != ""
    requires forall x :: x in t.rows ==> !TextLe(now, x.createdAt)
    ensures var (resp, t') := PostRsvp(Some(RsvpBody(Some(name), Some(attending), None, Some(text))), t, true, now);
            && resp.status == 200
            && |GetMessages(t')| > 0
            && GetMessages(t')[0] == Message(name, text, now)
  {
    var b := RsvpBody(Some(name), Some(attending), None, Some(text));
    SavedMessageFirst(t, ToInput(b), now);
  }

  /** An accepted submission with a guest count stores that count verbatim in
      the new row. */
  lemma TruthyGuestCountStored(t: Table, b: RsvpBody, now: string)
    requires !Falsy(b.guestCount)
    ensures var (resp, t') := PostRsvp(Some(b), t, true, now);
            resp.status == 200 ==> t'.rows[|t.rows|].guestCount == b.guestCount.value
  {
  }

  /** Any non-empty attendance text is accepted, not only "yes" or "no". */
  lemma AnyAttendingAccepted(t: Table, now: string)
    ensures PostRsvp(Some(RsvpBody(Some("Ana"), Some("maybe"), None, None)), t, true, now).0.status == 200
  {
  }

  /** A server failure reaches the wall as its error text. */
  lemma StoreFailureShowsError(held: seq<Message>, wall: MessageWall.WallState)
    ensures var (u, w) := MessageWall.CompleteFetch(held, wall, ClientOutcome(GetMessagesRoute(None)));
            u.None? && MessageWall.Render(w, held) == MessageWall.ErrorText(MessageWall.LoadError)
  {
  }
}

=== FILE: rsvp_form.dfy ===
/** The client-side RSVP form (components/rsvp-form.tsx): its schema, its
    default values, the field shown only to attending guests, and the submit
    cycle. The form only simulates sending; it never calls the API. */
module RsvpForm {
  import opened Wrappers

  /** The form's fields. `attending` is None when no radio option is chosen;
      the three optional fields are None when absent. */
  datatype FormValues = FormValues(
    name: string,
    email: string,
    attending: Option<string>,
    guestCount: Option<string>,
    dietaryRestrictions: Option<string>,
    message: Option<string>)

  /** A schema violation, one per failing field. */
  datatype Issue = NameTooShort | InvalidEmail | AttendingMissing | AttendingNotAnOption

  /** The message shown under the field, where the schema gives one; the
      library supplies its own text for an out-of-range choice. */
  function IssueText(i: Issue): (t: Option<string>)
    ensures t.Some? <==> i != AttendingNotAnOption
    ensures t.Some? ==> |t.value| > 0
  {
    match i
    case NameTooShort => Some("Name is required")
    case InvalidEmail => Some("Please enter a valid email")
    case AttendingMissing => Some("Please select if you're attending")
    case AttendingNotAnOption => None
  }

  /** No two issues share a message, so the text shown names the rule that
      failed. */
  lemma IssueTextsDistinct(i: Issue, j: Issue)
    requires IssueText(i).Some? && IssueText(i) == IssueText(j)
    ensures i == j
  {
  }

  /** The minimum length of `name`. */
  const MinNameLength: nat := 2

  /** The schema check, field by field in declaration order. The email format
      test belongs to the validation library and is passed in as `isEmail`. */
  function Issues(v: FormValues, isEmail: string -> bool): (r: seq<Issue>)
    ensures NameTooShort in r <==> |v.name| < MinNameLength
    ensures InvalidEmail in r <==> !isEmail(v.email)
    ensures AttendingMissing in r <==> v.attending.None?
    ensures AttendingNotAnOption in r <==> v.attending.Some? && v.attending.value != "yes" && v.attending.value != "no"
    ensures |r| == (if |v.name| < MinNameLength then 1 else 0)
                 + (if isEmail(v.email) then 0 else 1)
                 + (if v.attending == Some("yes") || v.attending == Some("no") then 0 else 1)
  {
    (if |v.name| < MinNameLength then [NameTooShort] else [])
    + (if !isEmail(v.email) then [InvalidEmail] else [])
    + (match v.attending
       case None => [AttendingMissing]
       case Some(a) => if a == "yes" || a == "no" then [] else [AttendingNotAnOption])
  }

  predicate Valid(v: FormValues, isEmail: string -> bool)
  {
    Issues(v, isEmail) == []
  }

  /** A form passes the schema exactly when the name has at least two
      characters, the email passes the library's test and the attendance is
      "yes" or "no"; the three optional fields never matter. */
  lemma ValidIff(v: FormValues, isEmail: string -> bool)
    ensures Valid(v, isEmail) <==>
      |v.name| >= MinNameLength && isEmail(v.email) && (v.attending == Some("yes") || v.attending == Some("no"))
  {
    var r := Issues(v, isEmail);
    if r != [] {
      assert r[0] in r;
    }
  }

  /** `defaultValues`. */
  const Defaults: FormValues := FormValues("", "", Some("yes"), Some("0"), Some(""), Some(""))

  /** The untouched form fails validation, whatever the email test says,
      because its name is empty. */
  lemma DefaultsInvalid(isEmail: string -> bool)
    ensures !Valid(Defaults, isEmail)
    ensures NameTooShort in Issues(Defaults, isEmail)
  {
  }

  /** Guest count and dietary restrictions are shown only to attending guests. */
  function ShowsGuestFields(v: FormValues): (shown: bool)
    ensures shown <==> v.attending == Some("yes")
  {
    match v.attending
    case Some(a) => a == "yes"
    case None => false
  }

  /** The form's state: the values, whether a submission is in flight, and
      the issues last reported. */
  datatype FormState = FormState(values: FormValues, isSubmitting: bool, issues: seq<Issue>)

  const InitialState: FormState := FormState(Defaults, false, [])

  /** The submit button is enabled only while nothing is being submitted. */
  function SubmitEnabled(s: FormState): (enabled: bool)
    ensures enabled <==> !s.isSubmitting
  {
    !s.isSubmitting
  }

  /** Pressing submit: ignored while the button is disabled; an invalid form
      reports its issues and keeps its values; a valid one starts `onSubmit`. */
  function PressSubmit(s: FormState, isEmail: string -> bool): (r: FormState)
    ensures s.isSubmitting ==> r == s
    ensures !s.isSubmitting ==> r.values == s.values && r.issues == Issues(s.values, isEmail)
    ensures !s.isSubmitting ==> (r.isSubmitting <==> Valid(s.values, isEmail))
  {
    if !SubmitEnabled(s) then s
    else
      var issues := Issues(s.values, isEmail);
      if issues == [] then FormState(s.values, true, []) else FormState(s.values, false, issues)
  }

  /** A valid form cannot be submitted twice: once a press starts the
      submission the button is disabled, and a second press changes nothing. */
  lemma NoDoubleSubmit(s: FormState, isEmail: string -> bool)
    requires !s.isSubmitting && Valid(s.values, isEmail)
    ensures !SubmitEnabled(PressSubmit(s, isEmail))
    ensures PressSubmit(PressSubmit(s, isEmail), isEmail) == PressSubmit(s, isEmail)
  {
  }

  /** The end of `onSubmit`: the form is reset to its defaults and the
      button is enabled again. */
  function FinishSubmit(s: FormState): (r: FormState)
    requires s.isSubmitting
    ensures r.values == Defaults && !r.isSubmitting && r.issues == []
  {
    InitialState
  }

  /** A full submission of a valid form leaves the form as it started, with
      the attendance-dependent fields shown again. */
  lemma SubmitCycleResets(s: FormState, isEmail: string -> bool)
    requires !s.isSubmitting && Valid(s.values, isEmail)
    ensures PressSubmit(s, isEmail).isSubmitting
    ensures FinishSubmit(PressSubmit(s, isEmail)) == InitialState
    ensures ShowsGuestFields(FinishSubmit(PressSubmit(s, isEmail)).values)
  {
  }
}

=== FILE: seqs.dfy ===
/** Order-preserving filtering of sequences: the model of `Array.prototype.filter`
    and of a SQL `WHERE` clause. */
module Seqs {

  /** The elements of `s` that satisfy `p`, in their original order. */
  function Filter<T>(s: seq<T>, p: T -> bool): (r: seq<T>)
    ensures |r| <= |s|
    ensures forall x :: x in r ==> x in s && p(x)
    ensures forall i :: 0 <= i < |s| && p(s[i]) ==> s[i] in r
    ensures multiset(r) <= multiset(s)
    decreases |s|
  {
    if |s| == 0 then []
    else
      var rest := Filter(s[1..], p);
      assert s == [s[0]] + s[1..];
      assert multiset(s) == multiset{s[0]} + multiset(s[1..]);
      assert forall x :: x in s[1..] ==> x in s;
      if p(s[0]) then [s[0]] + rest else rest
  }

  /** Filtering distributes over concatenation. */
  lemma {:induction false} FilterAppend<T>(a: seq<T>, b: seq<T>, p: T -> bool)
    ensures Filter(a + b, p) == Filter(a, p) + Filter(b, p)
    decreases |a|
  {
    if |a| == 0 {
      assert a + b == b;
    } else {
      assert (a + b)[1..] == a[1..] + b;
      FilterAppend(a[1..], b, p);
    }
  }

  /** A filter that rejects every element yields nothing. */
  lemma {:induction false} FilterNone<T>(s: seq<T>, p: T -> bool)
    requires forall x :: x in s ==> !p(x)
    ensures Filter(s, p) == []
    decreases |s|
  {
    if |s| > 0 {
      assert s[0] in s;
      assert forall x :: x in s[1..] ==> x in s;
      FilterNone(s[1..], p);
    }
  }

  /** A filter that accepts every element is the identity. */
  lemma {:induction false} FilterAll<T>(s: seq<T>, p: T -> bool)
    requires forall x :: x in s ==> p(x)
    ensures Filter(s, p) == s
    decreases |s|
  {
    if |s| > 0 {
      assert s[0] in s;
      assert forall x :: x in s[1..] ==> x in s;
      FilterAll(s[1..], p);
      assert s == [s[0]] + s[1..];
    }
  }
}

=== FILE: strings.dfy ===
/** Text comparison as SQLite's default BINARY collation performs it: byte-wise
    on UTF-8, which orders strings exactly as code-point-wise lexicographic order
    on their characters. */
module Strings {

  /** `a` sorts at or before `b`: a proper prefix sorts first, otherwise the
      first differing character decides. */
  predicate TextLe(a: string, b: string)
    decreases |a|
  {
    if |a| == 0 then true
    else if |b| == 0 then false
    else if a[0] != b[0] then a[0] < b[0]
    else TextLe(a[1..], b[1..])
  }

  lemma {:induction false} TextLeReflexive(a: string)
    ensures TextLe(a, a)
    decreases |a|
  {
    if |a| > 0 {
      TextLeReflexive(a[1..]);
    }
  }

  /** Any two strings are comparable. */
  lemma {:induction false} TextLeTotal(a: string, b: string)
    ensures TextLe(a, b) || TextLe(b, a)
    decreases |a|
  {
    if |a| > 0 && |b| > 0 && a[0] == b[0] {
      TextLeTotal(a[1..], b[1..]);
    }
  }

  lemma {:induction false} TextLeTransitive(a: string, b: string, c: string)
    requires TextLe(a, b) && TextLe(b, c)
    ensures TextLe(a, c)
    decreases |a|
  {
    if |a| > 0 && |b| > 0 && |c| > 0 && a[0] == b[0] && b[0] == c[0] {
      TextLeTransitive(a[1..], b[1..], c[1..]);
    }
  }

  /** Two strings that sort at or before each other are equal. */
  lemma {:induction false} TextLeAntisymmetric(a: string, b: string)
    requires TextLe(a, b) && TextLe(b, a)
    ensures a == b
    decreases |a|
  {
    if |a| > 0 {
      TextLeAntisymmetric(a[1..], b[1..]);
      assert a == [a[0]] + a[1..];
      assert b == [b[0]] + b[1..];
    }
  }
}

=== FILE: wrappers.dfy ===
/** Option and Result, the shapes the model uses for JavaScript's
    `undefined`/`null` and for thrown errors. */
module Wrappers {

  /** A value that may be absent (`undefined` or `null` in the source). */
  datatype Option<+T> = None | Some(value: T) {

    /** The carried value, or `default` when absent. */
    function GetOr(default: T): T {
      match this
      case Some(v) => v
      case None => default
    }
  }

  /** Either a value or an error, standing for a call that may throw. */
  datatype Result<+R, +E> = Success(value: R) | Failure(error: E)
}
